=== FILE: README.md ===
# simplesync, modelled in Dafny

simplesync mirrors a local directory to a remote host with rsync. It keeps one
long-lived ssh process open as a multiplexing master, and rsync reuses it through
the same control path. On start it runs one sync. Then a watchdog observer
triggers a sync on every filesystem event. Before each sync the handler checks
whether the ssh process is still running and starts a new one if it is not. SIGINT
and SIGTERM stop the observer, terminate ssh and exit 0.

This project models the deterministic core of `simplesync.py`:

- `strings.dfy` (`Strings`): Python's `str.strip()`, characterized as the unique
  whitespace-framed infix; `str.split(',')` and `join`, where join undoes split and split
  undoes the join of a non-empty list of separator-free pieces; and `str(int)`, with a reader that recovers the number.
- `config.dfy` (`Config`): the comma-split-and-strip of the two ignore lists.
- `command.dfy` (`Command`): the exclusion flags, the `user@host:path`
  destination, the ssh argument vector, rsync's `-e` remote-shell string, and the
  rsync command list with the optional `--verbose` at index 3.
- `session.dfy` (`Session`): the ssh process as an identity plus a liveness flag,
  `setup_ssh` and `check_ssh`.
- `sync.dfy` (`Sync`): the handler's fixed state and `rsync_exec`.
- `lifecycle.dfy` (`Lifecycle`): the whole run as a trace of observable actions.
  The trace covers the first ssh start, the initial sync, watching, events, ssh
  deaths and the stop sequence, and the lemmas state properties of it.

The environment is input. This covers whether an ssh start succeeds (a function
from the start number to a bool), when the ssh process exits, the events the
observer delivers and the stop signals. Process identities come from the counter
of ssh processes started, so a replacement process is always told apart from the
one it replaces. The run is stated for any handler, so its properties hold in
particular for the one `Sync.NewHandler` builds from the parsed arguments and
patterns.

Some behaviour of `simplesync.py` worth stating plainly:

- `.git`, `node_modules` and `*.log` give three exclusion flags, one per pattern
  (`Command.ExcludesScenario`).
- Every event triggers a sync when the session is healthy or can be restarted. The
  session check runs first. When the restart fails, exit status 1 is requested
  instead and that event gets no sync (`Lifecycle.ExecOutcome`).
- ssh is started with `-T` (no pseudo-terminal). No batch-mode option is passed.
- Paths and patterns are not escaped. Directory patterns are unquoted and file
  patterns are in single quotes.

## Model

| member | source | states |
|---|---|---|
| `Strings.Strip` | simplesync.py:14-15 | the result is the input with its leading and trailing Python whitespace removed: a whitespace-framed infix that neither starts nor ends with whitespace |
| `Strings.StripCharacterized` | simplesync.py:14-15 | any infix of the input framed by whitespace, not starting or ending with whitespace, is exactly what strip returns |
| `Strings.StripIdempotent` | simplesync.py:14-15 | stripping a stripped string changes nothing |
| `Strings.StripPadded` | simplesync.py:14-15 | a stripped string with whitespace added on either side strips back to itself |
| `Strings.Split` | simplesync.py:14-15 | splitting on a character gives one more piece than there are separators, and no piece contains the separator |
| `Strings.JoinSplit` | simplesync.py:14-15 | joining the pieces with the separator gives the original text back |
| `Strings.SplitJoin` | simplesync.py:14-15 | splitting the join of separator-free pieces gives the same pieces, in order |
| `Strings.NatToString` | simplesync.py:74 | `str()` of a non-negative integer is a non-empty run of decimal digits with no leading zero, and "0" exactly for zero |
| `Strings.IntToString` | simplesync.py:74 | `str()` of an integer starts with a minus sign exactly when it is negative |
| `Strings.NatToStringValue` | simplesync.py:74 | the digits written for a number denote that number |
| `Strings.IntToStringRoundTrip` | simplesync.py:74 | reading back the port text gives the port number |
| `Config.ParsePatterns` | simplesync.py:14-15 | a setting gives one pattern per comma-separated field; no pattern contains a comma or has surrounding whitespace |
| `Config.ParseJoined` | simplesync.py:14-15 | parsing comma-joined fields gives each field stripped, in order |
| `Config.ParsePatternsRoundTrip` | simplesync.py:14-15 | a list written as `a, b, c` parses back to the same list when no pattern has a comma or surrounding whitespace |
| `Command.DirExcludes` | simplesync.py:57 | one flag per ignored directory, in input order, each exactly `--exclude=` followed by the pattern, unquoted |
| `Command.FileExcludes` | simplesync.py:58 | one flag per ignored file pattern, in input order, each exactly `--exclude='`, the pattern, then a closing quote |
| `Command.ExcludesDecode` | simplesync.py:105 | the combined list has one entry per directory plus one per file pattern; directory flags come first, and each flag reads back to its own pattern |
| `Command.ExcludesScenario` | simplesync.py:57-58 | `.git`, `node_modules` and `*.log` give exactly three flags, directories first, with only the file pattern quoted |
| `Command.Remote` | simplesync.py:107-109 | the `user@host:path` destination; its contract is `Command.RemoteRoundTrip` (it splits back into user, host and path) and `Sync.CommandDestination` |
| `Command.RemoteRoundTrip` | simplesync.py:107-109 | the destination splits back at its first `@` and the following `:` into user, host and path, when the user has no `@` and the host no `:` |
| `Command.SshArgv` | simplesync.py:68-80 | the session's eleven-element argument vector; its contract is `Command.SshArgvReadBack` and `Command.SshArgvOptionServer` (what ssh reads from it) |
| `Command.SshArgvReadBack` | simplesync.py:68-80 | when the remote server does not begin with `-`, the session's argument vector, read as ssh reads its options, logs in as the remote user on the configured port, and its last argument and first operand is the remote server |
| `Command.SshArgvOptionServer` | simplesync.py:68-80 | when the remote server begins with `-`, ssh reads it as one more option and the argument vector has no host operand |
| `Command.RsyncSshConfig` | simplesync.py:60 | rsync's quoted `-e` string; its contract is `Command.SshConfigMatchesSession` (built from the session's own port, log-level and control-path arguments) |
| `Command.SshConfigMatchesSession` | simplesync.py:60-80 | rsync's remote-shell string runs ssh with the session's own port text, log-level option and control-path option, so both use the same multiplexing socket |
| `Command.BaseCommand` | simplesync.py:111-123 | the command has the eight fixed options (the last is the remote-shell string), then the exclusions, then the local path and the destination, and its length is 8 + exclusions + 2 |
| `Command.Insert` | simplesync.py:126 | list insertion with Python's index clamping: the length grows by one, the new element sits at the clamped index, and the other elements keep their order |
| `Command.RemoveInserted` | simplesync.py:126 | removing the inserted element gives the original list back |
| `Command.CommandList` | simplesync.py:111-127 | the rsync command list of `rsync_exec`; its contract is `Command.CommandListLayout` and `Command.CommandListPositions` |
| `Command.CommandListLayout` | simplesync.py:125-126 | without verbose the command is the base command. With verbose, `--verbose` is at index 3, the length grows by one, the other elements keep their order, and removing index 3 gives the base command |
| `Command.CommandListPositions` | simplesync.py:111-126 | for any remote-shell string and exclusions, `-e` and the string sit just before the exclusions (at 6 and 7, or 7 and 8 in verbose mode), the exclusions follow in order, and the local path and the destination end the command |
| `Session.SetupSsh` | simplesync.py:65-90 | a successful start gives a running process with a new identity and counts one more start; a failed start requests exit status 1 |
| `Session.ProcessExited` | simplesync.py:95 | the current process becomes not running; its identity and the start count are unchanged |
| `Session.CheckSsh` | simplesync.py:92-98 | a running session is kept and nothing is started. A dead session is replaced by exactly one new process with a new identity, or exit 1 is requested. Afterwards the session runs |
| `Sync.NewHandler` | simplesync.py:56-60 | the handler's construction: the two flag lists and the `-e` string; `Sync.HandlerCommandLayout` and `Sync.CommandDestination` state what its command holds |
| `Sync.HandlerCommand` | simplesync.py:105-127 | the command `rsync_exec` runs, which depends on the handler alone; its layout is `Sync.HandlerCommandLayout` |
| `Sync.RsyncExec` | simplesync.py:100-129 | the sync runs only after the check. It always runs against a running process, the one kept afterwards, and runs the same command whatever the session's history. It fails only when a dead session cannot be replaced |
| `Sync.HandlerCommandLayout` | simplesync.py:56-60 | in the command built from the handler, the exclusion flags follow the remote-shell string (one place later in verbose mode), and the local path and destination end it |
| `Sync.CommandDestination` | simplesync.py:107-123 | the last element of the handler's command splits back into the remote user, host and path, when the user has no `@` and the host no `:` |
| `Lifecycle.Exec` | simplesync.py:100-103 | after one rsync run that does not exit, the session is valid and running |
| `Lifecycle.ExecOutcome` | simplesync.py:100-103 | one rsync run either requests exit 1, which happens only when the session was dead and no new one could start, or performs exactly one sync, preceded by a start exactly when the session was dead |
| `Lifecycle.Watch` | simplesync.py:138-143 | the watching phase (`on_any_event`, ssh deaths, `stop_sync`); its contracts are `Lifecycle.WatchSound`, `Lifecycle.WatchEnds` and `Lifecycle.WatchCounts` |
| `Lifecycle.Stop` | simplesync.py:151-157 | `stop_sync`; `Lifecycle.StopsInOrder` inside `Lifecycle.WatchEnds` and `Lifecycle.RunEnds`, and `Lifecycle.RunStopsOnSignal`, state that a signal gives exactly observer stop, terminate, exit 0 |
| `Lifecycle.Serve` | simplesync.py:131-136 | `on_start`'s sync, then watching; its contracts are `Lifecycle.ServeSound`, `Lifecycle.ServeEnds`, `Lifecycle.ServeStart` and `Lifecycle.ServeCounts` |
| `Lifecycle.Run` | simplesync.py:146-170 | the `__main__` block from the first ssh start; its contracts are `Lifecycle.RunSound`, `Lifecycle.RunEnds`, `Lifecycle.RunStart`, `Lifecycle.RunCounts` and `Lifecycle.RunStopsOnSignal` |
| `Lifecycle.WatchSound` | simplesync.py:138-143 | while watching, every sync runs on the running process and every restart happens only when none is running. New processes get new identities, termination goes to the latest process, and every sync runs the same command |
| `Lifecycle.RunSound` | simplesync.py:146-170 | over a whole run, no sync runs against a dead session and a dead session is replaced by exactly one new process. Every sync uses the exclusion flags built once at construction, and the stop terminates the latest process |
| `Lifecycle.WatchEnds` | simplesync.py:138-143 | the watching phase never starts the observer again, any exit is its last action, an observer stop is followed by exactly terminate and exit 0, and an exit 0 only ever follows an observer stop and a terminate |
| `Lifecycle.RunEnds` | simplesync.py:151-157 | over a whole run, every exit is the last action, an observer stop is followed by exactly terminate and exit 0, and an exit 0 only ever follows an observer stop and a terminate; a failed first start only exits 1 |
| `Lifecycle.RunStopsOnSignal` | simplesync.py:151-157 | when every start succeeds and a stop signal arrives, the run ends with observer stop, the terminate of the ssh process started last, and exit 0 |
| `Lifecycle.RunStart` | simplesync.py:165-169 | the run starts ssh, runs exactly one sync (after one restart if the first process already died), then starts watching, and never starts watching again |
| `Lifecycle.WatchCounts` | simplesync.py:138-143 | when every start succeeds, there is exactly one sync per event before the first stop signal, and the phase ends with exit 0 exactly when a signal arrives |
| `Lifecycle.RunCounts` | simplesync.py:165-170 | when every start succeeds, a run performs one initial sync plus one sync per event before the stop signal. It ends with exit 0 exactly when a signal arrives, and without one it never exits |
| `Lifecycle.EventWhileAlive` | simplesync.py:138-143 | an event while the session runs gives exactly one sync on that process, then the rest of the events |
| `Lifecycle.EventAfterDeath` | simplesync.py:92-98 | when the new ssh process starts, an event after the session died gives one new process with the next identity and one sync on it, and that process is kept for the rest of the events |
| `Lifecycle.ExitThenEvent` | simplesync.py:92-98 | when the new ssh process starts, an ssh exit while the session runs, followed by an event, gives exactly the death of that process, one start with the next identity and one sync on it, with no exit; the new process is kept for the remaining events |
| `Lifecycle.RestartScenario` | simplesync.py:92-98 | when every ssh start succeeds, for any two events with an ssh exit between them, the run is start 0, sync on 0, watch, sync on 0, death of 0, start 1, sync on 1 |

## Left out

- Process control (`Popen`, `poll`, `terminate`, `os.setsid`, `os.system`) is
  foreign OS behaviour. Whether a start succeeds, and when a process exits, are
  inputs. rsync's own exit status is never inspected by the code, so it is not
  modelled.
- The watchdog observer and its threading are an external library. The observer is
  modelled as delivering inputs one at a time, in order.
- `sys.exit(1)` after a failed restart during watching runs on the observer's
  thread (simplesync.py:143, 103, 98, 90). Its effect there depends on Python
  threading and is not modelled. The model records the exit request and ends the
  trace. A failed first start, or a failed restart during the initial sync, runs
  on the main thread, where the model's exit is exact.
- Signal registration is OS plumbing. A stop signal is modelled only while
  watching. A signal that arrives during construction or during the initial sync
  is not modelled.
- argparse, its defaults from `os.getlogin()` and `os.getcwd()`, and configparser
  reading the file are library I/O. The parsed values and the settings' text are
  inputs.
- The command text built by `" ".join` and its interpretation by the shell are not
  modelled. No claim of shell safety is made: the code escapes nothing.
- Diagnostic printing is not modelled.
- `Lifecycle.RunSound`: a stop signal is modelled only between two delivered inputs,
  never during an `rsync_exec` in progress. In the original, `stop_sync` runs on the
  main thread (blocked in `observer.join()`, simplesync.py:170) while the observer
  thread may be restarting ssh (simplesync.py:143, 98, 83). simplesync.py:156 can then
  terminate the old process before the new one is stored, and the new, detached ssh
  process is never terminated. The model's `TerminatesCurrent` does not cover that
  interleaving.
- `Command.SshArgvReadBack`: requires a remote server that does not begin with `-`.
  simplesync.py:79 passes the server to ssh unchecked, so a server such as
  `-oProxyCommand=x` is read by ssh as an option and no host operand remains
  (`Command.SshArgvOptionServer`).
- `Command.SshArgvReadBack`: only the ssh options this argument vector uses are
  known to the reader. `-l`, `-p` and `-o` take a value; every other option is a
  flag.

=== FILE: command.dfy ===
/**
 The argument vectors the sync tool builds: the per-pattern `--exclude` flags, the
 `user@host:path` destination, the ssh command line of the session process, the
 `-e` remote-shell string handed to rsync, and the rsync command list itself.
 The exclusion flags, the destination and the ssh command line each have a reader
 that recovers their inputs; the `-e` string is tied to the ssh command line, and the
 command list is described position by position.
 */
module Command {
  import opened Wrappers
  import opened Strings

  /** The parsed command-line values; `remoteport` is an `int` as argparse's `type=int` gives. */
  datatype Args = Args(
    remoteuser: string,
    remoteserver: string,
    remoteport: int,
    remotepath: string,
    localpath: string,
    verbose: bool)

  // ---------------------------------------------------------------- exclusions

  /** The flag for an ignored directory pattern, written unquoted. */
  function DirExclude(p: string): string
  {
    "--exclude=" + p
  }

  /** The flag for an ignored file pattern, written in single quotes. */
  function FileExclude(p: string): string
  {
    "--exclude='" + p + "'"
  }

  /** One unquoted flag per directory pattern, in input order. */
  function DirExcludes(dirs: seq<string>): (r: seq<string>)
    ensures |r| == |dirs|
    ensures forall i :: 0 <= i < |r| ==> r[i] == DirExclude(dirs[i])
  {
    if |dirs| == 0 then [] else [DirExclude(dirs[0])] + DirExcludes(dirs[1..])
  }

  /** One quoted flag per file pattern, in input order. */
  function FileExcludes(files: seq<string>): (r: seq<string>)
    ensures |r| == |files|
    ensures forall i :: 0 <= i < |r| ==> r[i] == FileExclude(files[i])
  {
    if |files| == 0 then [] else [FileExclude(files[0])] + FileExcludes(files[1..])
  }

  /** The pattern an unquoted exclusion flag carries. */
  function DirPattern(flag: string): Option<string>
  {
    if |flag| >= 10 && flag[..10] == "--exclude=" then Some(flag[10..]) else None
  }

  /** The pattern a quoted exclusion flag carries, without its quotes. */
  function FilePattern(flag: string): Option<string>
  {
    if |flag| >= 12 && flag[..11] == "--exclude='" && flag[|flag| - 1] == '\'' then
      Some(flag[11..|flag| - 1])
    else
      None
  }

  /** The combined exclusion list lists every directory pattern, then every file pattern, each readable back from its flag. */
  lemma ExcludesDecode(dirs: seq<string>, files: seq<string>)
    ensures var e := DirExcludes(dirs) + FileExcludes(files);
      && |e| == |dirs| + |files|
      && (forall i :: 0 <= i < |dirs| ==> DirPattern(e[i]) == Some(dirs[i]))
      && (forall j :: 0 <= j < |files| ==> FilePattern(e[|dirs| + j]) == Some(files[j]))
  {
    var e := DirExcludes(dirs) + FileExcludes(files);
    forall i | 0 <= i < |dirs|
      ensures DirPattern(e[i]) == Some(dirs[i])
    {
      var f := DirExclude(dirs[i]);
      assert e[i] == f;
      assert f[..10] == "--exclude=" && f[10..] == dirs[i];
    }
    forall j | 0 <= j < |files|
      ensures FilePattern(e[|dirs| + j]) == Some(files[j])
    {
      var f := FileExclude(files[j]);
      assert e[|dirs| + j] == f;
      assert f[..11] == "--exclude='" && f[11..|f| - 1] == files[j];
    }
  }

  /** Two ignored directories and one ignored file pattern give three flags, directories first. */
  lemma ExcludesScenario()
    ensures DirExcludes([".git", "node_modules"]) + FileExcludes(["*.log"])
      == ["--exclude=.git", "--exclude=node_modules", "--exclude='*.log'"]
  {
    assert DirExclude(".git") == "--exclude=.git";
    assert DirExclude("node_modules") == "--exclude=node_modules";
    assert FileExclude("*.log") == "--exclude='*.log'";
  }

  // --------------------------------------------------------------- destination

  /** The `user@host:path` rsync destination. */
  function Remote(user: string, server: string, path: string): string
  {
    user + "@" + server + ":" + path
  }

  /** The position of the first `c` in `s`. */
  function IndexOf(s: string, c: char): (r: Option<nat>)
    ensures r.Some? ==> r.value < |s| && s[r.value] == c && c !in s[..r.value]
    ensures r.None? ==> c !in s
  {
    if |s| == 0 then None
    else if s[0] == c then Some(0)
    else match IndexOf(s[1..], c)
      case None => None
      case Some(i) =>
        assert s[..i + 1] == [s[0]] + s[1..][..i];
        Some(i + 1)
  }

  /** Reads a destination as user, host and path: up to the first `@`, then up to the next `:`, then the rest. */
  function SplitRemote(dest: string): Option<(string, string, string)>
  {
    match IndexOf(dest, '@')
    case None => None
    case Some(a) =>
      var rest := dest[a + 1..];
      match IndexOf(rest, ':')
      case None => None
      case Some(b) => Some((dest[..a], rest[..b], rest[b + 1..]))
  }

  /** Splitting at the first `c` of `a + [c] + b`, when `a` has none, gives back `a` and `b`. */
  lemma IndexOfAfter(a: string, c: char, b: string)
    requires c !in a
    ensures var s := a + [c] + b;
      && IndexOf(s, c) == Some(|a|)
      && s[..|a|] == a
      && s[|a| + 1..] == b
  {
    var s := a + [c] + b;
    assert s[|a|] == c;
    assert s[..|a|] == a;
    assert s[|a| + 1..] == b;
  }

  /** The destination reads back as the user, host and path it was built from, when the user has no `@` and the host no `:`. */
  lemma RemoteRoundTrip(user: string, server: string, path: string)
    requires '@' !in user && ':' !in server
    ensures SplitRemote(Remote(user, server, path)) == Some((user, server, path))
  {
    var rest := server + [':'] + path;
    assert Remote(user, server, path) == user + ['@'] + rest;
    IndexOfAfter(user, '@', rest);
    IndexOfAfter(server, ':', path);
  }

  // ----------------------------------------------------------------------- ssh

  /** The remote-shell string passed to rsync's `-e`, quoted for the shell that runs the command. */
  function RsyncSshConfig(port: int): string
  {
    "'ssh -p " + IntToString(port) + " -o LogLevel=error -oControlPath=~/.ssh/%r@%h:%p_%l'"
  }

  /** The argument vector of the long-lived ssh session process. */
  function SshArgv(a: Args): seq<string>
  {
    [ "ssh",
      "-T",
      "-l",
      a.remoteuser,
      "-p",
      IntToString(a.remoteport),
      "-o",
      "LogLevel=error",
      "-oControlMaster=auto",
      "-oControlPath=~/.ssh/%r@%h:%p_%l",
      a.remoteserver ]
  }

  /** An argument that ssh reads as an option. */
  predicate IsOption(arg: string)
  {
    |arg| > 0 && arg[0] == '-'
  }

  /** The ssh options among those used here that consume the following argument. */
  predicate TakesValue(arg: string)
  {
    arg == "-l" || arg == "-p" || arg == "-o"
  }

  /** The value given to option `flag`, scanning options from position `i` until the first operand. */
  function OptionValue(argv: seq<string>, flag: string, i: nat): Option<string>
    decreases |argv| - i
  {
    if i >= |argv| || !IsOption(argv[i]) then None
    else if TakesValue(argv[i]) then
      if i + 1 >= |argv| then None
      else if argv[i] == flag then Some(argv[i + 1])
      else OptionValue(argv, flag, i + 2)
    else OptionValue(argv, flag, i + 1)
  }

  /** The first operand after the options from position `i`: the host ssh connects to. */
  function Destination(argv: seq<string>, i: nat): Option<string>
    decreases |argv| - i
  {
    if i >= |argv| then None
    else if !IsOption(argv[i]) then Some(argv[i])
    else if TakesValue(argv[i]) then Destination(argv, i + 2)
    else Destination(argv, i + 1)
  }

  /**
   Read as ssh reads it, the session's argument vector logs in as the remote user,
   on the configured port, at the remote server, which is its last argument.
   */
  lemma SshArgvReadBack(a: Args)
    requires !IsOption(a.remoteserver)
    ensures OptionValue(SshArgv(a), "-l", 1) == Some(a.remoteuser)
    ensures OptionValue(SshArgv(a), "-p", 1).Some?
    ensures ParseInt(OptionValue(SshArgv(a), "-p", 1).value) == Some(a.remoteport)
    ensures Destination(SshArgv(a), 1) == Some(a.remoteserver)
    ensures SshArgv(a)[|SshArgv(a)| - 1] == a.remoteserver
  {
    var argv := SshArgv(a);
    IntToStringRoundTrip(a.remoteport);
    assert IsOption(argv[1]) && !TakesValue(argv[1]);
    assert IsOption(argv[2]) && TakesValue(argv[2]);
    assert IsOption(argv[4]) && TakesValue(argv[4]);
    assert IsOption(argv[6]) && TakesValue(argv[6]);
    assert IsOption(argv[8]) && !TakesValue(argv[8]);
    assert IsOption(argv[9]) && !TakesValue(argv[9]);
    assert OptionValue(argv, "-p", 1) == OptionValue(argv, "-p", 2) == OptionValue(argv, "-p", 4);
    assert Destination(argv, 1) == Destination(argv, 2) == Destination(argv, 4) == Destination(argv, 6)
      == Destination(argv, 8) == Destination(argv, 9) == Destination(argv, 10);
  }

  /** A remote server that begins with `-` is read by ssh as one more option, and no host operand remains. */
  lemma SshArgvOptionServer(a: Args)
    requires IsOption(a.remoteserver)
    ensures Destination(SshArgv(a), 1) == None
  {
    var argv := SshArgv(a);
    assert IsOption(argv[1]) && !TakesValue(argv[1]);
    assert IsOption(argv[2]) && TakesValue(argv[2]);
    assert IsOption(argv[4]) && TakesValue(argv[4]);
    assert IsOption(argv[6]) && TakesValue(argv[6]);
    assert IsOption(argv[8]) && !TakesValue(argv[8]);
    assert IsOption(argv[9]) && !TakesValue(argv[9]);
    assert Destination(argv, 1) == Destination(argv, 2) == Destination(argv, 4) == Destination(argv, 6)
      == Destination(argv, 8) == Destination(argv, 9) == Destination(argv, 10);
    assert |argv| == 11 && argv[10] == a.remoteserver;
    assert Destination(argv, 11) == None && Destination(argv, 12) == None;
  }

  // ConfigTail1-4 split one literal concatenation into single steps: the solver runs
  // out of resource when they are asserted together in one proof.
  lemma ConfigTail1()
    ensures " -o " + "LogLevel=error" == " -o LogLevel=error"
  {
  }

  lemma ConfigTail2()
    ensures " -o LogLevel=error" + " " == " -o LogLevel=error "
  {
  }

  lemma ConfigTail3()
    ensures " -o LogLevel=error " + "-oControlPath=~/.ssh/%r@%h:%p_%l"
      == " -o LogLevel=error -oControlPath=~/.ssh/%r@%h:%p_%l"
  {
  }

  lemma ConfigTail4()
    ensures " -o LogLevel=error -oControlPath=~/.ssh/%r@%h:%p_%l" + "'"
      == " -o LogLevel=error -oControlPath=~/.ssh/%r@%h:%p_%l'"
  {
  }

  /** The text after the port in the remote-shell string, split into the session's own option arguments. */
  lemma ConfigTail()
    ensures " -o LogLevel=error -oControlPath=~/.ssh/%r@%h:%p_%l'"
      == " -o " + "LogLevel=error" + " " + "-oControlPath=~/.ssh/%r@%h:%p_%l" + "'"
  {
    ConfigTail1();
    ConfigTail2();
    ConfigTail3();
    ConfigTail4();
  }

  /**
   rsync's remote-shell string is ssh run with the session's own port text, the same
   log-level option and the same control-path option, so rsync reaches the session's
   multiplexing socket.
   */
  lemma SshConfigMatchesSession(a: Args)
    ensures var argv := SshArgv(a);
      && argv[4] == "-p" && argv[6] == "-o"
      && RsyncSshConfig(a.remoteport) == "'ssh -p " + argv[5] + " -o " + argv[7] + " " + argv[9] + "'"
  {
    ConfigTail();
  }

  // --------------------------------------------------------------------- rsync

  /** The option prefix of every rsync command: archive, compression, itemized output, deletion, remote shell. */
  function RsyncOptions(sshConfig: string): seq<string>
  {
    ["rsync", "-azrP", "--no-motd", "-i", "--out-format='%i %n%L'", "--delete", "-e", sshConfig]
  }

  /** The rsync command list before the verbose flag is considered. */
  function BaseCommand(a: Args, sshConfig: string, excludes: seq<string>): (r: seq<string>)
    ensures |r| == 8 + |excludes| + 2
    ensures r[..8] == RsyncOptions(sshConfig)
    ensures r[8..8 + |excludes|] == excludes
    ensures r[|r| - 2] == a.localpath
    ensures r[|r| - 1] == Remote(a.remoteuser, a.remoteserver, a.remotepath)
  {
    RsyncOptions(sshConfig) + excludes + [a.localpath, Remote(a.remoteuser, a.remoteserver, a.remotepath)]
  }

  /** Where Python's `xs.insert(i, x)` puts `x` in a list of length `n`. */
  function InsertPosition(n: nat, i: int): (p: nat)
    ensures p <= n
  {
    if i < 0 then (if n + i < 0 then 0 else n + i) else if i > n then n else i
  }

  /** Python's `xs.insert(i, x)`, as a new list. */
  function Insert<T>(xs: seq<T>, i: int, x: T): (r: seq<T>)
    ensures |r| == |xs| + 1
    ensures var p := InsertPosition(|xs|, i);
      && r[p] == x
      && (forall k :: 0 <= k < p ==> r[k] == xs[k])
      && (forall k :: p <= k < |xs| ==> r[k + 1] == xs[k])
  {
    var p := InsertPosition(|xs|, i);
    xs[..p] + [x] + xs[p..]
  }

  function RemoveAt<T>(xs: seq<T>, p: nat): (r: seq<T>)
    requires p < |xs|
    ensures |r| == |xs| - 1
  {
    xs[..p] + xs[p + 1..]
  }

  /** Removing what was inserted gives the list back. */
  lemma RemoveInserted<T>(xs: seq<T>, i: int, x: T)
    ensures RemoveAt(Insert(xs, i, x), InsertPosition(|xs|, i)) == xs
  {
    var p := InsertPosition(|xs|, i);
    var r := Insert(xs, i, x);
    assert r[..p] == xs[..p];
    assert r[p + 1..] == xs[p..];
    assert xs[..p] + xs[p..] == xs;
  }

  /** The rsync command list: the base list, with `--verbose` inserted at index 3 in verbose mode. */
  function CommandList(a: Args, sshConfig: string, excludes: seq<string>): seq<string>
  {
    var base := BaseCommand(a, sshConfig, excludes);
    if a.verbose then Insert(base, 3, "--verbose") else base
  }

  /**
   Verbose mode changes the command only by `--verbose` at index 3: everything else keeps
   its order, and taking the flag out gives the command without it.
   */
  lemma CommandListLayout(a: Args, sshConfig: string, excludes: seq<string>)
    ensures var r := CommandList(a, sshConfig, excludes);
      var base := BaseCommand(a, sshConfig, excludes);
      && (!a.verbose ==> r == base)
      && (a.verbose ==>
            && |r| == |base| + 1
            && r[3] == "--verbose"
            && r[..3] == base[..3]
            && r[4..] == base[3..]
            && RemoveAt(r, 3) == base)
  {
    var base := BaseCommand(a, sshConfig, excludes);
    if a.verbose {
      RemoveInserted(base, 3, "--verbose");
      var r := Insert(base, 3, "--verbose");
      assert r[..3] == base[..3];
      assert r[4..] == base[3..];
    }
  }

  /** Where the remote-shell string, the exclusions, the local path and the destination sit in the command. */
  lemma CommandListPositions(a: Args, sshConfig: string, excludes: seq<string>)
    ensures var c := CommandList(a, sshConfig, excludes);
      var off := if a.verbose then 9 else 8;
      && |c| == off + |excludes| + 2
      && c[off..off + |excludes|] == excludes
      && c[|c| - 2] == a.localpath
      && c[|c| - 1] == Remote(a.remoteuser, a.remoteserver, a.remotepath)
      && c[off - 2] == "-e" && c[off - 1] == sshConfig
  {
    var base := BaseCommand(a, sshConfig, excludes);
    var c := CommandList(a, sshConfig, excludes);
    CommandListLayout(a, sshConfig, excludes);
    assert base[6] == "-e" && base[7] == sshConfig by {
      assert base[..8][6] == base[6] && base[..8][7] == base[7];
    }
    if a.verbose {
      assert c[4..] == base[3..];
      assert c[9..9 + |excludes|] == base[8..8 + |excludes|];
      assert c[7] == base[6] && c[8] == base[7];
    }
  }
}

=== FILE: config.dfy ===
/**
 The two exclusion pattern lists read from the configuration file: each setting is
 a comma-separated string whose fields are stripped of surrounding whitespace.
 Reading the file itself is not modelled; the setting's text is the input.
 */
module Config {
  import opened Strings

  /** Strips every piece, keeping their order. */
  function StripAll(pieces: seq<string>): (r: seq<string>)
    ensures |r| == |pieces|
    ensures forall k :: 0 <= k < |r| ==> r[k] == Strip(pieces[k])
  {
    if |pieces| == 0 then [] else [Strip(pieces[0])] + StripAll(pieces[1..])
  }

  /** `[i.strip() for i in value.split(',')]`: one pattern per comma-separated field. */
  function ParsePatterns(value: string): (r: seq<string>)
    ensures |r| == Count(value, ',') + 1
    ensures forall k :: 0 <= k < |r| ==> ',' !in r[k] && Strip(r[k]) == r[k]
  {
    var pieces := Split(value, ',');
    var r := StripAll(pieces);
    forall k | 0 <= k < |r|
      ensures Strip(r[k]) == r[k]
    {
      StripIdempotent(pieces[k]);
    }
    r
  }

  /** Parsing comma-joined fields yields each field stripped, in order. */
  lemma ParseJoined(fields: seq<string>)
    requires |fields| >= 1
    requires forall k :: 0 <= k < |fields| ==> ',' !in fields[k]
    ensures ParsePatterns(Join(fields, ",")) == StripAll(fields)
  {
    SplitJoin(fields, ',');
  }

  /** The fields after the first, each with one space in front: `Join(xs, ", ")` is `Join` of these with `","`. */
  function SpaceAfterComma(xs: seq<string>): (r: seq<string>)
    ensures |r| == |xs|
    ensures |xs| > 0 ==> r[0] == xs[0]
    ensures forall k :: 0 < k < |xs| ==> r[k] == " " + xs[k]
  {
    if |xs| == 0 then [] else [xs[0]] + seq(|xs| - 1, k requires 0 <= k < |xs| - 1 => " " + xs[k + 1])
  }

  lemma {:induction false} JoinCommaSpace(xs: seq<string>)
    requires |xs| >= 1
    ensures Join(xs, ", ") == Join(SpaceAfterComma(xs), ",")
  {
    if |xs| > 1 {
      JoinCommaSpace(xs[1..]);
      var p, q := SpaceAfterComma(xs), SpaceAfterComma(xs[1..]);
      assert p[1..] == [" " + q[0]] + q[1..];
      if |xs| == 2 {
        assert Join(p[1..], ",") == " " + q[0];
      } else {
        assert Join(p[1..], ",") == " " + q[0] + "," + Join(q[1..], ",");
        assert Join(q, ",") == q[0] + "," + Join(q[1..], ",");
      }
    }
  }

  /** One space before a stripped, comma-free pattern: still comma-free, and stripped back off. */
  lemma SpacedField(x: string)
    requires ',' !in x && Strip(x) == x
    ensures ',' !in " " + x && Strip(" " + x) == x
  {
    StripPadded(" ", x, "");
    assert " " + x + "" == " " + x;
  }

  /** The fields of `a, b, c` are comma-free and strip back to the patterns. */
  lemma SpacedFields(xs: seq<string>)
    requires |xs| >= 1
    requires forall k :: 0 <= k < |xs| ==> ',' !in xs[k] && Strip(xs[k]) == xs[k]
    ensures forall k :: 0 <= k < |xs| ==> ',' !in SpaceAfterComma(xs)[k]
    ensures StripAll(SpaceAfterComma(xs)) == xs
  {
    var fields := SpaceAfterComma(xs);
    forall k | 0 < k < |fields|
      ensures ',' !in fields[k] && Strip(fields[k]) == xs[k]
    {
      SpacedField(xs[k]);
    }
    assert StripAll(fields) == xs;
  }

  /** A list written as `a, b, c` reads back as the list, when no pattern has a comma or surrounding whitespace. */
  lemma ParsePatternsRoundTrip(xs: seq<string>)
    requires |xs| >= 1
    requires forall k :: 0 <= k < |xs| ==> ',' !in xs[k] && Strip(xs[k]) == xs[k]
    ensures ParsePatterns(Join(xs, ", ")) == xs
  {
    JoinCommaSpace(xs);
    SpacedFields(xs);
    ParseJoined(SpaceAfterComma(xs));
  }
}

=== FILE: lifecycle.dfy ===
/**
 The whole run of the sync tool as a trace of observable actions: the first ssh
 process is started, one initial sync runs, the observer starts watching, and from
 then on every filesystem event triggers a checked sync, the ssh process may die
 at any time, and a stop signal stops the observer, terminates ssh and exits 0.
 The environment (event arrival, process deaths, whether a start succeeds) is input.
 */
module Lifecycle {
  import opened Wrappers
  import opened Command
  import opened Session
  import opened Sync

  datatype StopSignal = SigInt | SigTerm

  /** What the environment delivers while the observer is watching. */
  datatype Input =
    | FsEvent(srcPath: string, eventType: string)
    | SshExit
    | Signal(sig: StopSignal)

  /** What an outside observer of the process sees. */
  datatype Action =
    | Spawned(pid: nat)
    | Synced(argv: seq<string>, pid: nat)
    | Watching
    | SshDied(pid: nat)
    | ObserverStopped
    | Terminated(pid: nat)
    | Exit(status: int)

  /** The outcome of one `rsync_exec`: either the run goes on with a manager, or it has asked to exit. */
  datatype Step = Continue(m: Manager, out: seq<Action>) | Halt(out: seq<Action>)

  /** `rsync_exec` as actions: a replacement ssh start if one was needed, then the sync. */
  function Exec(h: Handler, m: Manager, spawnOk: nat -> bool): (s: Step)
    requires Valid(m)
    ensures s.Continue? ==> Valid(s.m) && s.m.current.alive
  {
    match RsyncExec(h, m, spawnOk(m.spawns))
    case Err(code) => Halt([Exit(code)])
    case Ok((m', inv)) =>
      var respawn := if m'.spawns == m.spawns then [] else [Spawned(m'.current.pid)];
      Continue(m', respawn + [Synced(inv.argv, inv.session.pid)])
  }

  /** `stop_sync`: stop the observer, terminate the current ssh process, exit with status 0. */
  function Stop(m: Manager): seq<Action>
  {
    [ObserverStopped, Terminated(m.current.pid), Exit(0)]
  }

  /** The watching phase: the observer delivers inputs one at a time, in order. */
  function Watch(h: Handler, m: Manager, inputs: seq<Input>, spawnOk: nat -> bool): seq<Action>
    requires Valid(m)
    decreases |inputs|
  {
    if |inputs| == 0 then []
    else match inputs[0]
      case FsEvent(_, _) =>
        (match Exec(h, m, spawnOk)
         case Halt(out) => out
         case Continue(m', out) => out + Watch(h, m', inputs[1..], spawnOk))
      case SshExit =>
        if m.current.alive then [SshDied(m.current.pid)] + Watch(h, ProcessExited(m), inputs[1..], spawnOk)
        else Watch(h, m, inputs[1..], spawnOk)
      case Signal(_) => Stop(m)
  }

  /**
   The program, once the handler `h` is built (`Sync.NewHandler` from the parsed
   arguments and patterns; every property below holds for any handler): start ssh
   process 0 (`exitedEarly` says it has already exited when the initial sync checks
   it), run the initial sync, start watching. A failed ssh start asks to exit with
   status 1.
   */
  function Run(h: Handler, exitedEarly: bool, inputs: seq<Input>, spawnOk: nat -> bool): seq<Action>
  {
    match SetupSsh(0, spawnOk(0))
    case Err(code) => [Exit(code)]
    case Ok(m0) =>
      var start := if exitedEarly then [Spawned(m0.current.pid), SshDied(m0.current.pid)] else [Spawned(m0.current.pid)];
      var m := if exitedEarly then ProcessExited(m0) else m0;
      start + Serve(h, m, inputs, spawnOk)
  }

  /** `on_start`'s sync, then the observer is scheduled and started and the watching phase runs. */
  function Serve(h: Handler, m: Manager, inputs: seq<Input>, spawnOk: nat -> bool): seq<Action>
    requires Valid(m)
  {
    match Exec(h, m, spawnOk)
    case Halt(out) => out
    case Continue(m', out) => out + [Watching] + Watch(h, m', inputs, spawnOk)
  }

  // ------------------------------------------------------- reading a trace

  /** How an action changes which ssh process is known to be running. */
  function LiveStep(live: Option<nat>, a: Action): Option<nat>
  {
    match a
    case Spawned(p) => Some(p)
    case SshDied(p) => if live == Some(p) then None else live
    case Terminated(p) => if live == Some(p) then None else live
    case _ => live
  }

  /** The ssh process known to be running after the actions of `t`. */
  function LiveAt(t: seq<Action>): Option<nat>
  {
    if |t| == 0 then None else LiveStep(LiveAt(t[..|t| - 1]), t[|t| - 1])
  }

  /** The ssh process started last in `t`. */
  function LastSpawned(t: seq<Action>): Option<nat>
  {
    if |t| == 0 then None
    else if t[|t| - 1].Spawned? then Some(t[|t| - 1].pid)
    else LastSpawned(t[..|t| - 1])
  }

  /** Every sync runs against the ssh process known to be running at that moment. */
  predicate SyncsOnLiveSessions(t: seq<Action>)
  {
    forall i :: 0 <= i < |t| && t[i].Synced? ==> LiveAt(t[..i]) == Some(t[i].pid)
  }

  /** After the first, an ssh process is only started when none is known to be running. */
  predicate RespawnsOnlyWhenDead(t: seq<Action>)
  {
    forall i :: 0 < i < |t| && t[i].Spawned? ==> LiveAt(t[..i]) == None
  }

  /** Every ssh process started has a new identity. */
  predicate FreshIdentities(t: seq<Action>)
  {
    forall i, j :: 0 <= i < j < |t| && t[i].Spawned? && t[j].Spawned? ==> t[i].pid < t[j].pid
  }

  /** Termination is sent to the ssh process started last. */
  predicate TerminatesCurrent(t: seq<Action>)
  {
    forall i :: 0 <= i < |t| && t[i].Terminated? ==> LastSpawned(t[..i]) == Some(t[i].pid)
  }

  /** Every sync runs the command `cmd`. */
  predicate SameCommand(t: seq<Action>, cmd: seq<string>)
  {
    forall i :: 0 <= i < |t| && t[i].Synced? ==> t[i].argv == cmd
  }

  predicate Sound(t: seq<Action>, cmd: seq<string>)
  {
    && SyncsOnLiveSessions(t)
    && RespawnsOnlyWhenDead(t)
    && FreshIdentities(t)
    && TerminatesCurrent(t)
    && SameCommand(t, cmd)
  }

  /** The trace so far agrees with the manager about the ssh processes. */
  predicate Tracks(t: seq<Action>, m: Manager)
  {
    && Valid(m)
    && |t| > 0
    && LiveAt(t) == (if m.current.alive then Some(m.current.pid) else None)
    && LastSpawned(t) == Some(m.current.pid)
    && (forall i :: 0 <= i < |t| && t[i].Spawned? ==> t[i].pid < m.spawns)
  }

  // ------------------------------------------------- extending a sound trace

  /** Regrouping a concatenation; called where the solver does not find the regrouping itself in time. */
  lemma Associative<T>(a: seq<T>, b: seq<T>, c: seq<T>)
    ensures a + b + c == a + (b + c)
  {
  }

  /** Appending one action leaves every earlier position and prefix as it was. */
  lemma AppendFacts(t: seq<Action>, a: Action)
    ensures forall i :: 0 <= i <= |t| ==> (t + [a])[..i] == t[..i]
    ensures forall i :: 0 <= i < |t| ==> (t + [a])[i] == t[i]
    ensures (t + [a])[|t|] == a && (t + [a])[..|t|] == t
    ensures LiveAt(t + [a]) == LiveStep(LiveAt(t), a)
    ensures LastSpawned(t + [a]) == if a.Spawned? then Some(a.pid) else LastSpawned(t)
  {
    var u := t + [a];
    assert u[..|t|] == t;
    forall i | 0 <= i <= |t|
      ensures u[..i] == t[..i]
    {
    }
  }

  lemma AppendLive(t: seq<Action>, a: Action)
    requires SyncsOnLiveSessions(t)
    requires a.Synced? ==> LiveAt(t) == Some(a.pid)
    ensures SyncsOnLiveSessions(t + [a])
  {
    var u := t + [a];
    AppendFacts(t, a);
    forall i | 0 <= i < |u| && u[i].Synced?
      ensures LiveAt(u[..i]) == Some(u[i].pid)
    {
      if i < |t| {
        assert u[..i] == t[..i] && u[i] == t[i];
      }
    }
  }

  lemma AppendRespawn(t: seq<Action>, a: Action)
    requires RespawnsOnlyWhenDead(t)
    requires a.Spawned? && |t| > 0 ==> LiveAt(t) == None
    ensures RespawnsOnlyWhenDead(t + [a])
  {
    var u := t + [a];
    AppendFacts(t, a);
    forall i | 0 < i < |u| && u[i].Spawned?
      ensures LiveAt(u[..i]) == None
    {
      if i < |t| {
        assert u[..i] == t[..i] && u[i] == t[i];
      }
    }
  }

  lemma AppendFresh(t: seq<Action>, a: Action)
    requires FreshIdentities(t)
    requires a.Spawned? ==> forall i :: 0 <= i < |t| && t[i].Spawned? ==> t[i].pid < a.pid
    ensures FreshIdentities(t + [a])
  {
    var u := t + [a];
    AppendFacts(t, a);
    forall i, j | 0 <= i < j < |u| && u[i].Spawned? && u[j].Spawned?
      ensures u[i].pid < u[j].pid
    {
      assert u[i] == t[i];
      if j < |t| {
        assert u[j] == t[j];
      }
    }
  }

  lemma AppendTerminates(t: seq<Action>, a: Action)
    requires TerminatesCurrent(t)
    requires a.Terminated? ==> LastSpawned(t) == Some(a.pid)
    ensures TerminatesCurrent(t + [a])
  {
    var u := t + [a];
    AppendFacts(t, a);
    forall i | 0 <= i < |u| && u[i].Terminated?
      ensures LastSpawned(u[..i]) == Some(u[i].pid)
    {
      if i < |t| {
        assert u[..i] == t[..i] && u[i] == t[i];
      }
    }
  }

  lemma AppendSameCommand(t: seq<Action>, a: Action, cmd: seq<string>)
    requires SameCommand(t, cmd)
    requires a.Synced? ==> a.argv == cmd
    ensures SameCommand(t + [a], cmd)
  {
    AppendFacts(t, a);
  }

  /** Appending one action keeps the trace sound when the action itself respects the rules. */
  lemma AppendSound(t: seq<Action>, a: Action, cmd: seq<string>)
    requires Sound(t, cmd)
    requires a.Synced? ==> LiveAt(t) == Some(a.pid) && a.argv == cmd
    requires a.Spawned? && |t| > 0 ==> LiveAt(t) == None
    requires a.Spawned? ==> forall i :: 0 <= i < |t| && t[i].Spawned? ==> t[i].pid < a.pid
    requires a.Terminated? ==> LastSpawned(t) == Some(a.pid)
    ensures Sound(t + [a], cmd)
    ensures LiveAt(t + [a]) == LiveStep(LiveAt(t), a)
    ensures LastSpawned(t + [a]) == if a.Spawned? then Some(a.pid) else LastSpawned(t)
  {
    AppendFacts(t, a);
    AppendLive(t, a);
    AppendRespawn(t, a);
    AppendFresh(t, a);
    AppendTerminates(t, a);
    AppendSameCommand(t, a, cmd);
  }

  /** A sync on the live session keeps the trace sound and in step with the manager. */
  lemma SyncSound(t: seq<Action>, m: Manager, cmd: seq<string>)
    requires Tracks(t, m) && Sound(t, cmd) && m.current.alive
    ensures Tracks(t + [Synced(cmd, m.current.pid)], m) && Sound(t + [Synced(cmd, m.current.pid)], cmd)
  {
    AppendSound(t, Synced(cmd, m.current.pid), cmd);
  }

  /** Starting a replacement for a dead session and syncing on it keeps the trace sound and in step with the new manager. */
  lemma RespawnSyncSound(t: seq<Action>, m: Manager, cmd: seq<string>)
    requires Tracks(t, m) && Sound(t, cmd) && !m.current.alive
    ensures var m' := Manager(SshProcess(m.spawns, true), m.spawns + 1);
      var out := [Spawned(m.spawns), Synced(cmd, m.spawns)];
      Tracks(t + out, m') && Sound(t + out, cmd)
  {
    var m' := Manager(SshProcess(m.spawns, true), m.spawns + 1);
    var sp := Spawned(m.spawns);
    var s := Synced(cmd, m.spawns);
    AppendSound(t, sp, cmd);
    AppendSound(t + [sp], s, cmd);
    var u := t + [sp] + [s];
    assert u == t + [sp, s];
    forall i | 0 <= i < |u| && u[i].Spawned?
      ensures u[i].pid < m'.spawns
    {
      if i < |t| {
        assert u[i] == t[i];
      }
    }
  }

  /** The actions of one `rsync_exec` keep the trace sound, and in step with the new manager when it succeeds. */
  lemma ExecSound(h: Handler, m: Manager, spawnOk: nat -> bool, t: seq<Action>)
    requires Tracks(t, m) && Sound(t, HandlerCommand(h))
    ensures match Exec(h, m, spawnOk)
      case Continue(m', out) => Tracks(t + out, m') && Sound(t + out, HandlerCommand(h))
      case Halt(out) => Sound(t + out, HandlerCommand(h))
  {
    var cmd := HandlerCommand(h);
    ExecOutcome(h, m, spawnOk);
    if Exec(h, m, spawnOk).Halt? {
      AppendSound(t, Exit(SetupFailureStatus), cmd);
    } else if m.current.alive {
      SyncSound(t, m, cmd);
    } else {
      RespawnSyncSound(t, m, cmd);
    }
  }

  /** Starting the observer changes nothing about the ssh processes. */
  lemma WatchingTracks(t: seq<Action>, m: Manager)
    requires Tracks(t, m)
    ensures Tracks(t + [Watching], m)
  {
    var u := t + [Watching];
    assert u[..|t|] == t;
    forall i | 0 <= i < |u| && u[i].Spawned?
      ensures u[i].pid < m.spawns
    {
      assert i < |t| && u[i] == t[i];
    }
  }

  /** Recording that the current ssh process exited keeps the trace sound. */
  lemma DiedSound(m: Manager, t: seq<Action>, cmd: seq<string>)
    requires Tracks(t, m) && Sound(t, cmd) && m.current.alive
    ensures Tracks(t + [SshDied(m.current.pid)], ProcessExited(m))
    ensures Sound(t + [SshDied(m.current.pid)], cmd)
  {
    AppendSound(t, SshDied(m.current.pid), cmd);
  }

  /** The stop sequence keeps the trace sound. */
  lemma StopSound(m: Manager, t: seq<Action>, cmd: seq<string>)
    requires Tracks(t, m) && Sound(t, cmd)
    ensures Sound(t + Stop(m), cmd)
  {
    var a, b, c := ObserverStopped, Terminated(m.current.pid), Exit(0);
    AppendSound(t, a, cmd);
    AppendSound(t + [a], b, cmd);
    AppendSound(t + [a] + [b], c, cmd);
    assert t + [a] + [b] + [c] == t + Stop(m);
  }

  lemma {:induction false} WatchSound(h: Handler, m: Manager, inputs: seq<Input>, spawnOk: nat -> bool, t: seq<Action>)
    requires Tracks(t, m) && Sound(t, HandlerCommand(h))
    ensures Sound(t + Watch(h, m, inputs, spawnOk), HandlerCommand(h))
    decreases |inputs|, 1
  {
    if |inputs| == 0 {
      assert t + Watch(h, m, inputs, spawnOk) == t;
    } else {
      match inputs[0]
      case FsEvent(_, _) =>
        EventSound(h, m, inputs, spawnOk, t);
      case SshExit =>
        ExitSound(h, m, inputs, spawnOk, t);
      case Signal(_) =>
        assert Watch(h, m, inputs, spawnOk) == Stop(m);
        StopSound(m, t, HandlerCommand(h));
    }
  }

  /** A filesystem event: one `rsync_exec`, then the rest of the inputs. */
  lemma {:induction false} EventSound(h: Handler, m: Manager, inputs: seq<Input>, spawnOk: nat -> bool, t: seq<Action>)
    requires |inputs| > 0 && inputs[0].FsEvent?
    requires Tracks(t, m) && Sound(t, HandlerCommand(h))
    ensures Sound(t + Watch(h, m, inputs, spawnOk), HandlerCommand(h))
    decreases |inputs|, 0
  {
    ExecSound(h, m, spawnOk, t);
    match Exec(h, m, spawnOk) {
      case Halt(out) =>
        assert Watch(h, m, inputs, spawnOk) == out;
      case Continue(m', out) =>
        var w := Watch(h, m', inputs[1..], spawnOk);
        assert Watch(h, m, inputs, spawnOk) == out + w;
        WatchSound(h, m', inputs[1..], spawnOk, t + out);
        Associative(t, out, w);
    }
  }

  /** The ssh process exits: recorded once, while it was still running, then the rest of the inputs. */
  lemma {:induction false} ExitSound(h: Handler, m: Manager, inputs: seq<Input>, spawnOk: nat -> bool, t: seq<Action>)
    requires |inputs| > 0 && inputs[0].SshExit?
    requires Tracks(t, m) && Sound(t, HandlerCommand(h))
    ensures Sound(t + Watch(h, m, inputs, spawnOk), HandlerCommand(h))
    decreases |inputs|, 0
  {
    if m.current.alive {
      var d := [SshDied(m.current.pid)];
      var w := Watch(h, ProcessExited(m), inputs[1..], spawnOk);
      assert Watch(h, m, inputs, spawnOk) == d + w;
      DiedSound(m, t, HandlerCommand(h));
      WatchSound(h, ProcessExited(m), inputs[1..], spawnOk, t + d);
      Associative(t, d, w);
    } else {
      assert Watch(h, m, inputs, spawnOk) == Watch(h, m, inputs[1..], spawnOk);
      WatchSound(h, m, inputs[1..], spawnOk, t);
    }
  }

  lemma ServeSound(h: Handler, m: Manager, inputs: seq<Input>, spawnOk: nat -> bool, t: seq<Action>)
    requires Tracks(t, m) && Sound(t, HandlerCommand(h))
    ensures Sound(t + Serve(h, m, inputs, spawnOk), HandlerCommand(h))
  {
    ExecSound(h, m, spawnOk, t);
    match Exec(h, m, spawnOk)
    case Halt(out) =>
    case Continue(m', out) =>
      AppendSound(t + out, Watching, HandlerCommand(h));
      WatchingTracks(t + out, m');
      var w := Watch(h, m', inputs, spawnOk);
      WatchSound(h, m', inputs, spawnOk, t + out + [Watching]);
      assert Serve(h, m, inputs, spawnOk) == out + [Watching] + w;
      Associative(t, out, [Watching]);
      Associative(t, out + [Watching], w);
  }

  /**
   Over a whole run: no sync runs against a dead session; an ssh process is started
   after the first only when none is running, always with a new identity; the stop
   sequence terminates the process started last; and every sync runs the same command,
   with the exclusion flags built once when the handler was constructed.
   */
  lemma RunSound(h: Handler, exitedEarly: bool, inputs: seq<Input>, spawnOk: nat -> bool)
    ensures Sound(Run(h, exitedEarly, inputs, spawnOk), HandlerCommand(h))
  {
    var cmd := HandlerCommand(h);
    RunUnfold(h, exitedEarly, inputs, spawnOk);
    if !spawnOk(0) {
      AppendSound([], Exit(SetupFailureStatus), cmd);
      assert [] + [Exit(SetupFailureStatus)] == [Exit(SetupFailureStatus)];
    } else {
      StartSound(exitedEarly, cmd);
      ServeSound(h, StartManager(exitedEarly), inputs, spawnOk, StartTrace(exitedEarly));
    }
  }

  /** What a run shows before the initial sync when the first start succeeds. */
  function StartTrace(exitedEarly: bool): seq<Action>
  {
    if exitedEarly then [Spawned(0), SshDied(0)] else [Spawned(0)]
  }

  /** The manager the initial sync sees when the first start succeeds. */
  function StartManager(exitedEarly: bool): (m: Manager)
    ensures Valid(m) && m.current.pid == 0 && m.spawns == 1 && m.current.alive == !exitedEarly
  {
    var m0 := Manager(SshProcess(0, true), 1);
    if exitedEarly then ProcessExited(m0) else m0
  }

  /** A run is the first start, possibly its early exit, then the initial sync and the watching phase. */
  lemma RunUnfold(h: Handler, exitedEarly: bool, inputs: seq<Input>, spawnOk: nat -> bool)
    ensures !spawnOk(0) ==> Run(h, exitedEarly, inputs, spawnOk) == [Exit(SetupFailureStatus)]
    ensures spawnOk(0) ==>
      Run(h, exitedEarly, inputs, spawnOk)
      == StartTrace(exitedEarly) + Serve(h, StartManager(exitedEarly), inputs, spawnOk)
  {
  }

  /** The start-up actions are a sound trace in step with the manager the initial sync sees. */
  lemma StartSound(exitedEarly: bool, cmd: seq<string>)
    ensures Tracks(StartTrace(exitedEarly), StartManager(exitedEarly))
    ensures Sound(StartTrace(exitedEarly), cmd)
  {
    var m0 := Manager(SshProcess(0, true), 1);
    var sp := Spawned(0);
    AppendSound([], sp, cmd);
    AppendFacts([], sp);
    assert [] + [sp] == [sp];
    assert Tracks([sp], m0);
    if exitedEarly {
      DiedSound(m0, [sp], cmd);
      assert [sp] + [SshDied(0)] == StartTrace(true);
    }
  }

  /** The start-up actions hold no sync and no exit. */
  lemma StartQuiet(exitedEarly: bool)
    ensures SyncCount(StartTrace(exitedEarly)) == 0
    ensures Ongoing(StartTrace(exitedEarly)) && NoExit(StartTrace(exitedEarly))
    ensures Watching !in StartTrace(exitedEarly)
  {
    SyncCountNone(StartTrace(exitedEarly));
  }

  // ------------------------------------------------------- ordering and counts

  /** An exit, when there is one, is the last thing the process does. */
  predicate ExitIsLast(t: seq<Action>)
  {
    forall i :: 0 <= i < |t| && t[i].Exit? ==> i == |t| - 1
  }

  /**
   Stopping the observer is followed by terminating ssh and exiting 0, and by nothing
   else; and an exit with status 0 only ever comes right after those two.
   */
  predicate StopsInOrder(t: seq<Action>)
  {
    && (forall i :: 0 <= i < |t| && t[i].ObserverStopped? ==> i + 3 == |t| && t[i + 1].Terminated? && t[i + 2] == Exit(0))
    && (forall i :: 0 <= i < |t| && t[i] == Exit(0) ==> i >= 2 && t[i - 2] == ObserverStopped && t[i - 1].Terminated?)
  }

  /** Actions that do not end the run. */
  predicate Ongoing(c: seq<Action>)
  {
    forall i :: 0 <= i < |c| ==> !c[i].Exit? && !c[i].ObserverStopped?
  }

  lemma OngoingThen(c: seq<Action>, w: seq<Action>)
    requires Ongoing(c) && ExitIsLast(w) && StopsInOrder(w)
    ensures ExitIsLast(c + w) && StopsInOrder(c + w)
    ensures Watching !in c && Watching !in w ==> Watching !in c + w
  {
    var u := c + w;
    forall i | |c| <= i < |u|
      ensures u[i] == w[i - |c|]
    {
    }
  }

  /** The number of syncs in a trace. */
  function SyncCount(t: seq<Action>): nat
  {
    if |t| == 0 then 0 else (if t[0].Synced? then 1 else 0) + SyncCount(t[1..])
  }

  lemma {:induction false} SyncCountAppend(a: seq<Action>, b: seq<Action>)
    ensures SyncCount(a + b) == SyncCount(a) + SyncCount(b)
  {
    if |a| > 0 {
      SyncCountAppend(a[1..], b);
      assert (a + b)[1..] == a[1..] + b;
    } else {
      assert a + b == b;
    }
  }

  lemma {:induction false} SyncCountNone(t: seq<Action>)
    requires forall i :: 0 <= i < |t| ==> !t[i].Synced?
    ensures SyncCount(t) == 0
  {
    if |t| > 0 {
      assert forall i :: 0 <= i < |t| - 1 ==> t[1..][i] == t[i + 1];
      SyncCountNone(t[1..]);
    }
  }

  /** The actions of one `rsync_exec`: a request to exit when no ssh process can be started, else one sync, after at most one start. */
  lemma ExecOutcome(h: Handler, m: Manager, spawnOk: nat -> bool)
    requires Valid(m)
    ensures match Exec(h, m, spawnOk)
      case Halt(out) => out == [Exit(SetupFailureStatus)] && !m.current.alive && !spawnOk(m.spawns)
      case Continue(m', out) =>
        && Ongoing(out) && Watching !in out && SyncCount(out) == 1
        && (m.current.alive ==> m' == m && out == [Synced(HandlerCommand(h), m.current.pid)])
        && (!m.current.alive ==>
              && m' == Manager(SshProcess(m.spawns, true), m.spawns + 1)
              && out == [Spawned(m.spawns), Synced(HandlerCommand(h), m.spawns)])
  {
    match Exec(h, m, spawnOk) {
      case Halt(out) =>
      case Continue(m', out) =>
        if |out| == 1 {
          assert out[1..] == [];
        } else {
          var tail := out[1..];
          assert tail == [out[1]] && !out[0].Synced? && tail[0].Synced?;
          assert tail[1..] == [];
          assert SyncCount(tail) == 1 + SyncCount(tail[1..]) == 1;
          assert SyncCount(out) == SyncCount(tail);
        }
    }
  }

  /** The watching phase never starts watching again, and ends, if at all, with the exit. */
  lemma {:induction false} WatchEnds(h: Handler, m: Manager, inputs: seq<Input>, spawnOk: nat -> bool)
    requires Valid(m)
    ensures var w := Watch(h, m, inputs, spawnOk);
      Watching !in w && ExitIsLast(w) && StopsInOrder(w)
    decreases |inputs|
  {
    if |inputs| > 0 {
      match inputs[0]
      case FsEvent(_, _) =>
        ExecOutcome(h, m, spawnOk);
        match Exec(h, m, spawnOk) {
          case Halt(out) =>
          case Continue(m', out) =>
            WatchEnds(h, m', inputs[1..], spawnOk);
            OngoingThen(out, Watch(h, m', inputs[1..], spawnOk));
        }
      case SshExit =>
        if m.current.alive {
          WatchEnds(h, ProcessExited(m), inputs[1..], spawnOk);
          OngoingThen([SshDied(m.current.pid)], Watch(h, ProcessExited(m), inputs[1..], spawnOk));
        } else {
          WatchEnds(h, m, inputs[1..], spawnOk);
        }
      case Signal(_) =>
    }
  }

  lemma ServeEnds(h: Handler, m: Manager, inputs: seq<Input>, spawnOk: nat -> bool)
    requires Valid(m)
    ensures ExitIsLast(Serve(h, m, inputs, spawnOk)) && StopsInOrder(Serve(h, m, inputs, spawnOk))
  {
    ExecOutcome(h, m, spawnOk);
    match Exec(h, m, spawnOk) {
      case Halt(out) =>
      case Continue(m', out) =>
        var w := Watch(h, m', inputs, spawnOk);
        WatchEnds(h, m', inputs, spawnOk);
        var c := out + [Watching];
        assert Ongoing(c) by {
          forall i | 0 <= i < |c|
            ensures !c[i].Exit? && !c[i].ObserverStopped?
          {
            if i < |out| {
              assert c[i] == out[i];
            }
          }
        }
        OngoingThen(c, w);
        assert Serve(h, m, inputs, spawnOk) == c + w;
    }
  }

  /** Every exit is the last action; a stop runs observer stop, ssh terminate, exit 0; a failed first start exits 1. */
  lemma RunEnds(h: Handler, exitedEarly: bool, inputs: seq<Input>, spawnOk: nat -> bool)
    ensures var t := Run(h, exitedEarly, inputs, spawnOk);
      && ExitIsLast(t)
      && StopsInOrder(t)
      && (!spawnOk(0) ==> t == [Exit(SetupFailureStatus)])
  {
    RunUnfold(h, exitedEarly, inputs, spawnOk);
    if spawnOk(0) {
      var m := StartManager(exitedEarly);
      ServeEnds(h, m, inputs, spawnOk);
      StartQuiet(exitedEarly);
      OngoingThen(StartTrace(exitedEarly), Serve(h, m, inputs, spawnOk));
    }
  }

  /** A trace that starts with `p` keeps doing so, after `p`, behind anything put in front of it. */
  lemma PrefixThen(a: seq<Action>, b: seq<Action>, p: seq<Action>)
    requires |p| <= |b| && b[..|p|] == p
    ensures |a| + |p| <= |a + b|
    ensures (a + b)[..|a| + |p|] == a + p
    ensures (a + b)[|a| + |p|..] == b[|p|..]
  {
    assert (a + b)[..|a| + |p|] == a + b[..|p|];
  }

  /** The first `rsync_exec` of a session that can run: at most one start, one sync, then watching, once. */
  lemma ServeStart(h: Handler, m: Manager, inputs: seq<Input>, spawnOk: nat -> bool)
    requires Valid(m) && (m.current.alive || spawnOk(m.spawns))
    ensures var s := Serve(h, m, inputs, spawnOk);
      var cmd := HandlerCommand(h);
      var pre := if m.current.alive then [Synced(cmd, m.current.pid), Watching]
                 else [Spawned(m.spawns), Synced(cmd, m.spawns), Watching];
      && |pre| <= |s|
      && s[..|pre|] == pre
      && Watching !in s[|pre|..]
  {
    ExecOutcome(h, m, spawnOk);
    match Exec(h, m, spawnOk) {
      case Halt(out) =>
        assert false;
      case Continue(m', out) =>
        var w := Watch(h, m', inputs, spawnOk);
        WatchEnds(h, m', inputs, spawnOk);
        var pre := out + [Watching];
        assert Serve(h, m, inputs, spawnOk) == pre + w;
        assert (pre + w)[..|pre|] == pre && (pre + w)[|pre|..] == w;
    }
  }

  /**
   Start-up order: ssh is started, then exactly one sync runs (after one replacement
   start if the first ssh process has already exited), then the observer starts
   watching, which happens only once.
   */
  lemma RunStart(h: Handler, exitedEarly: bool, inputs: seq<Input>, spawnOk: nat -> bool)
    requires spawnOk(0) && (exitedEarly ==> spawnOk(1))
    ensures var t := Run(h, exitedEarly, inputs, spawnOk);
      var cmd := HandlerCommand(h);
      var pre := if exitedEarly then [Spawned(0), SshDied(0), Spawned(1), Synced(cmd, 1), Watching]
                 else [Spawned(0), Synced(cmd, 0), Watching];
      && |pre| <= |t|
      && t[..|pre|] == pre
      && Watching !in t[|pre|..]
  {
    var cmd := HandlerCommand(h);
    var m := StartManager(exitedEarly);
    RunUnfold(h, exitedEarly, inputs, spawnOk);
    ServeStart(h, m, inputs, spawnOk);
    var p := if exitedEarly then [Spawned(1), Synced(cmd, 1), Watching] else [Synced(cmd, 0), Watching];
    PrefixThen(StartTrace(exitedEarly), Serve(h, m, inputs, spawnOk), p);
    assert StartTrace(exitedEarly) + p
           == if exitedEarly then [Spawned(0), SshDied(0), Spawned(1), Synced(cmd, 1), Watching]
              else [Spawned(0), Synced(cmd, 0), Watching];
  }

  /** The filesystem events delivered before the first stop signal. */
  function EventsBeforeStop(inputs: seq<Input>): nat
  {
    if |inputs| == 0 then 0
    else match inputs[0]
      case FsEvent(_, _) => 1 + EventsBeforeStop(inputs[1..])
      case SshExit => EventsBeforeStop(inputs[1..])
      case Signal(_) => 0
  }

  predicate HasSignal(inputs: seq<Input>)
  {
    exists i :: 0 <= i < |inputs| && inputs[i].Signal?
  }

  lemma HasSignalCons(inputs: seq<Input>)
    requires |inputs| > 0
    ensures HasSignal(inputs) <==> inputs[0].Signal? || HasSignal(inputs[1..])
  {
    var rest := inputs[1..];
    if HasSignal(inputs) && !inputs[0].Signal? {
      var i :| 0 <= i < |inputs| && inputs[i].Signal?;
      assert rest[i - 1] == inputs[i];
    }
    if HasSignal(rest) {
      var i :| 0 <= i < |rest| && rest[i].Signal?;
      assert inputs[i + 1] == rest[i];
    }
  }

  predicate NoExit(t: seq<Action>)
  {
    forall i :: 0 <= i < |t| ==> !t[i].Exit?
  }

  predicate EndsWithExit0(t: seq<Action>)
  {
    |t| > 0 && t[|t| - 1] == Exit(0)
  }

  /** Actions that do not exit change neither whether a trace exits nor how it ends. */
  lemma NoExitThen(a: seq<Action>, b: seq<Action>)
    requires NoExit(a)
    ensures NoExit(a + b) <==> NoExit(b)
    ensures EndsWithExit0(a + b) <==> EndsWithExit0(b)
  {
    var u := a + b;
    forall i | |a| <= i < |u|
      ensures u[i] == b[i - |a|]
    {
    }
    if |b| == 0 {
      assert u == a;
    } else {
      assert u[|u| - 1] == b[|b| - 1];
    }
    if NoExit(u) {
      forall i | 0 <= i < |b|
        ensures !b[i].Exit?
      {
        assert b[i] == u[i + |a|];
      }
    }
  }

  /**
   When every ssh start succeeds, each event delivered before a stop signal causes
   exactly one sync, and the phase ends with exit 0 exactly when a stop signal arrives.
   */
  lemma {:induction false} WatchCounts(h: Handler, m: Manager, inputs: seq<Input>, spawnOk: nat -> bool)
    requires Valid(m)
    requires forall k :: spawnOk(k)
    ensures var w := Watch(h, m, inputs, spawnOk);
      && SyncCount(w) == EventsBeforeStop(inputs)
      && (HasSignal(inputs) <==> EndsWithExit0(w))
      && (!HasSignal(inputs) ==> NoExit(w))
    decreases |inputs|, 1
  {
    if |inputs| > 0 {
      match inputs[0]
      case FsEvent(_, _) =>
        EventCounts(h, m, inputs, spawnOk);
      case SshExit =>
        ExitCounts(h, m, inputs, spawnOk);
      case Signal(_) =>
        HasSignalCons(inputs);
        SyncCountNone(Watch(h, m, inputs, spawnOk));
    }
  }

  /** A filesystem event: one sync, then the rest of the inputs. */
  lemma {:induction false} EventCounts(h: Handler, m: Manager, inputs: seq<Input>, spawnOk: nat -> bool)
    requires |inputs| > 0 && inputs[0].FsEvent?
    requires Valid(m)
    requires forall k :: spawnOk(k)
    ensures var w := Watch(h, m, inputs, spawnOk);
      && SyncCount(w) == EventsBeforeStop(inputs)
      && (HasSignal(inputs) <==> EndsWithExit0(w))
      && (!HasSignal(inputs) ==> NoExit(w))
    decreases |inputs|, 0
  {
    var rest := inputs[1..];
    HasSignalCons(inputs);
    assert spawnOk(m.spawns);
    ExecOutcome(h, m, spawnOk);
    match Exec(h, m, spawnOk) {
      case Halt(out) =>
        assert false;
      case Continue(m', out) =>
        var w' := Watch(h, m', rest, spawnOk);
        WatchCounts(h, m', rest, spawnOk);
        SyncCountAppend(out, w');
        NoExitThen(out, w');
        assert Watch(h, m, inputs, spawnOk) == out + w';
    }
  }

  /** The ssh process exits: no sync and no exit, then the rest of the inputs. */
  lemma {:induction false} ExitCounts(h: Handler, m: Manager, inputs: seq<Input>, spawnOk: nat -> bool)
    requires |inputs| > 0 && inputs[0].SshExit?
    requires Valid(m)
    requires forall k :: spawnOk(k)
    ensures var w := Watch(h, m, inputs, spawnOk);
      && SyncCount(w) == EventsBeforeStop(inputs)
      && (HasSignal(inputs) <==> EndsWithExit0(w))
      && (!HasSignal(inputs) ==> NoExit(w))
    decreases |inputs|, 0
  {
    var rest := inputs[1..];
    HasSignalCons(inputs);
    if m.current.alive {
      var d := [SshDied(m.current.pid)];
      var w' := Watch(h, ProcessExited(m), rest, spawnOk);
      WatchCounts(h, ProcessExited(m), rest, spawnOk);
      SyncCountAppend(d, w');
      SyncCountNone(d);
      NoExitThen(d, w');
      assert Watch(h, m, inputs, spawnOk) == d + w';
    } else {
      WatchCounts(h, m, rest, spawnOk);
    }
  }

  /** One sync from `on_start`, then the watching phase's. */
  lemma ServeCounts(h: Handler, m: Manager, inputs: seq<Input>, spawnOk: nat -> bool)
    requires Valid(m)
    requires forall k :: spawnOk(k)
    ensures var s := Serve(h, m, inputs, spawnOk);
      && SyncCount(s) == 1 + EventsBeforeStop(inputs)
      && (HasSignal(inputs) <==> EndsWithExit0(s))
      && (!HasSignal(inputs) ==> NoExit(s))
  {
    assert spawnOk(m.spawns);
    ExecOutcome(h, m, spawnOk);
    match Exec(h, m, spawnOk) {
      case Halt(out) =>
        assert false;
      case Continue(m', out) =>
        var w := Watch(h, m', inputs, spawnOk);
        WatchCounts(h, m', inputs, spawnOk);
        var pre := out + [Watching];
        assert Serve(h, m, inputs, spawnOk) == pre + w;
        SyncCountNone([Watching]);
        SyncCountAppend(out, [Watching]);
        SyncCountAppend(pre, w);
        assert NoExit(pre) by {
          forall i | 0 <= i < |pre|
            ensures !pre[i].Exit?
          {
            if i < |out| {
              assert pre[i] == out[i];
            }
          }
        }
        NoExitThen(pre, w);
    }
  }

  /**
   Over a whole run in which every ssh start succeeds: one initial sync plus one sync
   per event before the stop signal, and the run ends with exit 0 exactly when a stop
   signal arrives; without one the process keeps watching and never exits.
   */
  lemma RunCounts(h: Handler, exitedEarly: bool, inputs: seq<Input>, spawnOk: nat -> bool)
    requires forall k :: spawnOk(k)
    ensures var t := Run(h, exitedEarly, inputs, spawnOk);
      && SyncCount(t) == 1 + EventsBeforeStop(inputs)
      && (HasSignal(inputs) <==> EndsWithExit0(t))
      && (!HasSignal(inputs) ==> NoExit(t))
  {
    assert spawnOk(0);
    RunUnfold(h, exitedEarly, inputs, spawnOk);
    var start := StartTrace(exitedEarly);
    var s := Serve(h, StartManager(exitedEarly), inputs, spawnOk);
    ServeCounts(h, StartManager(exitedEarly), inputs, spawnOk);
    StartQuiet(exitedEarly);
    SyncCountAppend(start, s);
    NoExitThen(start, s);
  }

  /**
   When every ssh start succeeds and a stop signal arrives, the run ends with the whole
   stop sequence: the observer is stopped, the ssh process started last is terminated,
   and the process exits 0.
   */
  lemma RunStopsOnSignal(h: Handler, exitedEarly: bool, inputs: seq<Input>, spawnOk: nat -> bool)
    requires forall k :: spawnOk(k)
    requires HasSignal(inputs)
    ensures var t := Run(h, exitedEarly, inputs, spawnOk);
      && |t| >= 3
      && t[|t| - 3] == ObserverStopped
      && t[|t| - 2].Terminated?
      && LastSpawned(t[..|t| - 2]) == Some(t[|t| - 2].pid)
      && t[|t| - 1] == Exit(0)
  {
    var t := Run(h, exitedEarly, inputs, spawnOk);
    RunCounts(h, exitedEarly, inputs, spawnOk);
    RunEnds(h, exitedEarly, inputs, spawnOk);
    RunSound(h, exitedEarly, inputs, spawnOk);
    assert t[|t| - 1] == Exit(0);
  }

  // -------------------------------------------------------------- scenarios

  /** An event while the session is alive: one sync on it, then the rest of the inputs. */
  lemma EventWhileAlive(h: Handler, m: Manager, inputs: seq<Input>, spawnOk: nat -> bool)
    requires Valid(m) && m.current.alive
    requires |inputs| > 0 && inputs[0].FsEvent?
    ensures Watch(h, m, inputs, spawnOk)
            == [Synced(HandlerCommand(h), m.current.pid)] + Watch(h, m, inputs[1..], spawnOk)
  {
    ExecOutcome(h, m, spawnOk);
  }

  /** An event after the session died: a new process, one sync on it, then the rest of the inputs. */
  lemma EventAfterDeath(h: Handler, m: Manager, inputs: seq<Input>, spawnOk: nat -> bool)
    requires Valid(m) && !m.current.alive && spawnOk(m.spawns)
    requires |inputs| > 0 && inputs[0].FsEvent?
    ensures Watch(h, m, inputs, spawnOk)
            == [Spawned(m.spawns), Synced(HandlerCommand(h), m.spawns)]
               + Watch(h, Manager(SshProcess(m.spawns, true), m.spawns + 1), inputs[1..], spawnOk)
  {
    ExecOutcome(h, m, spawnOk);
  }

  /** The ssh process exits while the session is alive: recorded, then the rest of the inputs. */
  lemma ExitWhileAlive(h: Handler, m: Manager, inputs: seq<Input>, spawnOk: nat -> bool)
    requires Valid(m) && m.current.alive
    requires |inputs| > 0 && inputs[0].SshExit?
    ensures Watch(h, m, inputs, spawnOk)
            == [SshDied(m.current.pid)] + Watch(h, ProcessExited(m), inputs[1..], spawnOk)
  {
  }

  /**
   An ssh exit while the session runs, then an event: the exit is recorded against the
   running process with no sync, start or exit of its own, and the event then starts
   exactly one process, with the next identity, syncs on it and keeps it.
   */
  lemma ExitThenEvent(h: Handler, m: Manager, inputs: seq<Input>, spawnOk: nat -> bool)
    requires Valid(m) && m.current.alive && spawnOk(m.spawns)
    requires |inputs| >= 2 && inputs[0].SshExit? && inputs[1].FsEvent?
    ensures Watch(h, m, inputs, spawnOk)
            == [SshDied(m.current.pid), Spawned(m.spawns), Synced(HandlerCommand(h), m.spawns)]
               + Watch(h, Manager(SshProcess(m.spawns, true), m.spawns + 1), inputs[2..], spawnOk)
  {
    EventAfterDeath(h, ProcessExited(m), inputs[1..], spawnOk);
    assert inputs[1..][1..] == inputs[2..];
  }

  /** The watching phase of `RestartScenario`. */
  lemma RestartWatch(h: Handler, inputs: seq<Input>, spawnOk: nat -> bool)
    requires forall k :: spawnOk(k)
    requires |inputs| == 3 && inputs[0].FsEvent? && inputs[1] == SshExit && inputs[2].FsEvent?
    ensures var cmd := HandlerCommand(h);
      Watch(h, Manager(SshProcess(0, true), 1), inputs, spawnOk)
      == [Synced(cmd, 0), SshDied(0), Spawned(1), Synced(cmd, 1)]
  {
    var m0 := Manager(SshProcess(0, true), 1);
    assert spawnOk(1);
    assert inputs[1..][1..][1..] == [];
    EventAfterDeath(h, ProcessExited(m0), inputs[1..][1..], spawnOk);
    ExitWhileAlive(h, m0, inputs[1..], spawnOk);
    EventWhileAlive(h, m0, inputs, spawnOk);
  }

  /** The initial sync and the watching phase of `RestartScenario`. */
  lemma RestartServe(h: Handler, inputs: seq<Input>, spawnOk: nat -> bool)
    requires forall k :: spawnOk(k)
    requires |inputs| == 3 && inputs[0].FsEvent? && inputs[1] == SshExit && inputs[2].FsEvent?
    ensures var cmd := HandlerCommand(h);
      Serve(h, Manager(SshProcess(0, true), 1), inputs, spawnOk)
      == [Synced(cmd, 0), Watching, Synced(cmd, 0), SshDied(0), Spawned(1), Synced(cmd, 1)]
  {
    var m0 := Manager(SshProcess(0, true), 1);
    var cmd := HandlerCommand(h);
    assert spawnOk(0);
    var w := Watch(h, m0, inputs, spawnOk);
    RestartWatch(h, inputs, spawnOk);
    ExecOutcome(h, m0, spawnOk);
    assert Exec(h, m0, spawnOk) == Continue(m0, [Synced(cmd, 0)]);
    assert Serve(h, m0, inputs, spawnOk) == [Synced(cmd, 0)] + [Watching] + w;
  }

  /** The ssh process exits between two events: the second sync runs on a new process. */
  lemma RestartScenario(h: Handler, spawnOk: nat -> bool, e1: Input, e2: Input)
    requires forall k :: spawnOk(k)
    requires e1.FsEvent? && e2.FsEvent?
    ensures var cmd := HandlerCommand(h);
      Run(h, false, [e1, SshExit, e2], spawnOk)
      == [Spawned(0), Synced(cmd, 0), Watching, Synced(cmd, 0), SshDied(0), Spawned(1), Synced(cmd, 1)]
  {
    var inputs := [e1, SshExit, e2];
    assert spawnOk(0);
    RestartServe(h, inputs, spawnOk);
    RunUnfold(h, false, inputs, spawnOk);
    var s := Serve(h, StartManager(false), inputs, spawnOk);
    assert Run(h, false, inputs, spawnOk) == [Spawned(0)] + s;
  }
}

=== FILE: session.dfy ===
/**
 The ssh session the handler keeps open for rsync to multiplex over. A process is an
 identity and a liveness flag (what `poll()` reports); identities come from a counter
 of processes started, so a replacement is always distinguishable from what it replaces.
 Whether starting a process succeeds is an input, as is a process's death.
 */
module Session {
  import opened Wrappers

  /** One ssh child process: its identity and whether it is still running. */
  datatype SshProcess = SshProcess(pid: nat, alive: bool)

  /** The handler's current ssh process, and how many ssh processes have been started. */
  datatype Manager = Manager(current: SshProcess, spawns: nat)

  /** The current process is the latest one started; earlier ones have smaller identities. */
  predicate Valid(m: Manager)
  {
    m.spawns >= 1 && m.current.pid == m.spawns - 1
  }

  /** The exit status requested when ssh cannot be started. */
  const SetupFailureStatus := 1

  /**
   `setup_ssh`: start the next ssh process, with identity `spawns`. When the start fails
   the handler asks to exit with status 1; there is no retry.
   */
  function SetupSsh(spawns: nat, started: bool): (r: Result<Manager, int>)
    ensures r.Ok? <==> started
    ensures r.Ok? ==> Valid(r.value) && r.value.current.alive && r.value.spawns == spawns + 1
    ensures r.Err? ==> r.error == SetupFailureStatus
  {
    if started then Ok(Manager(SshProcess(spawns, true), spawns + 1)) else Err(SetupFailureStatus)
  }

  /** The current ssh process has exited; nothing else changes. */
  function ProcessExited(m: Manager): (r: Manager)
    requires Valid(m)
    ensures Valid(r) && !r.current.alive
    ensures r.current.pid == m.current.pid && r.spawns == m.spawns
  {
    m.(current := m.current.(alive := false))
  }

  /**
   `check_ssh`: a live session is kept as it is and nothing is started; a dead one is
   replaced by exactly one newly started process, which is the one kept afterwards.
   */
  function CheckSsh(m: Manager, started: bool): (r: Result<Manager, int>)
    requires Valid(m)
    ensures m.current.alive ==> r == Ok(m)
    ensures !m.current.alive && started ==>
      && r.Ok?
      && r.value.spawns == m.spawns + 1
      && r.value.current.pid == m.spawns
      && r.value.current.pid != m.current.pid
    ensures !m.current.alive && !started ==> r == Err(SetupFailureStatus)
    ensures r.Ok? ==> Valid(r.value) && r.value.current.alive
  {
    if m.current.alive then Ok(m) else SetupSsh(m.spawns, started)
  }
}

=== FILE: strings.dfy ===
/**
 The text operations the sync tool takes from Python's `str`: `strip()` with no
 argument, characterized as the unique whitespace-framed infix; `split` on one
 separator character and `join`, where join undoes split and split undoes the join
 of a non-empty list of separator-free pieces; and `str()` of an integer, with a
 reader that recovers the number.
 */
module Strings {
  import opened Wrappers

  /** The characters for which Python's `str.isspace()` holds; `str.strip()` removes exactly these. */
  predicate IsSpace(c: char)
  {
    || c == ' '
    || '\t' <= c <= '\r'
    || '\U{1C}' <= c <= '\U{1F}'
    || c == '\U{85}' || c == '\U{A0}' || c == '\U{1680}'
    || '\U{2000}' <= c <= '\U{200A}'
    || c == '\U{2028}' || c == '\U{2029}' || c == '\U{202F}' || c == '\U{205F}' || c == '\U{3000}'
  }

  predicate AllSpace(s: string)
  {
    forall i :: 0 <= i < |s| ==> IsSpace(s[i])
  }

  /** The number of whitespace characters `s` starts with. */
  function LeadingSpace(s: string): (n: nat)
    ensures n <= |s|
    ensures forall i :: 0 <= i < n ==> IsSpace(s[i])
    ensures n < |s| ==> !IsSpace(s[n])
  {
    if |s| > 0 && IsSpace(s[0]) then 1 + LeadingSpace(s[1..]) else 0
  }

  /** The number of whitespace characters `s` ends with. */
  function TrailingSpace(s: string): (n: nat)
    ensures n <= |s|
    ensures forall i :: |s| - n <= i < |s| ==> IsSpace(s[i])
    ensures n < |s| ==> !IsSpace(s[|s| - 1 - n])
  {
    if |s| > 0 && IsSpace(s[|s| - 1]) then 1 + TrailingSpace(s[..|s| - 1]) else 0
  }

  /** `r` is what is left of `s` once the whitespace before offset `i` and after `r` is removed. */
  predicate StripsTo(s: string, i: int, r: string)
  {
    && 0 <= i <= |s| - |r|
    && r == s[i..i + |r|]
    && AllSpace(s[..i])
    && AllSpace(s[i + |r|..])
    && (|r| > 0 ==> !IsSpace(r[0]) && !IsSpace(r[|r| - 1]))
  }

  /** Python's `s.strip()`. */
  function Strip(s: string): (r: string)
    ensures exists i :: StripsTo(s, i, r)
  {
    var a := LeadingSpace(s);
    var t := s[a..];
    var b := TrailingSpace(t);
    var r := t[..|t| - b];
    assert s[a..a + |r|] == r;
    assert s[a + |r|..] == t[|t| - b..];
    assert StripsTo(s, a, r);
    r
  }

  /** `Strip` is determined by its contract: any string framed by whitespace in `s` is `Strip(s)`. */
  lemma StripCharacterized(s: string, i: int, r: string)
    requires StripsTo(s, i, r)
    ensures Strip(s) == r
  {
    var j :| StripsTo(s, j, Strip(s));
  }

  /** Stripping twice is stripping once. */
  lemma StripIdempotent(s: string)
    ensures Strip(Strip(s)) == Strip(s)
  {
    var r := Strip(s);
    assert r[..0] == [] && r[|r|..] == [] && r[0..|r|] == r;
    StripCharacterized(r, 0, r);
  }

  /** A stripped string with whitespace added around it strips back to itself. */
  lemma StripPadded(a: string, x: string, b: string)
    requires AllSpace(a) && AllSpace(b) && Strip(x) == x
    ensures Strip(a + x + b) == x
  {
    var s := a + x + b;
    assert s[..|a|] == a;
    assert s[|a|..|a| + |x|] == x;
    assert s[|a| + |x|..] == b;
    var j :| StripsTo(x, j, Strip(x));
    StripCharacterized(s, |a|, x);
  }

  /** The number of occurrences of `c` in `s`. */
  function Count(s: string, c: char): nat
  {
    if |s| == 0 then 0 else (if s[0] == c then 1 else 0) + Count(s[1..], c)
  }

  /** Python's `s.split(c)` for a one-character separator: the pieces between occurrences of `c`. */
  function Split(s: string, c: char): (r: seq<string>)
    ensures |r| == Count(s, c) + 1
    ensures forall k :: 0 <= k < |r| ==> c !in r[k]
  {
    if |s| == 0 then [""]
    else
      var rest := Split(s[1..], c);
      if s[0] == c then [""] + rest else [[s[0]] + rest[0]] + rest[1..]
  }

  /** Python's `sep.join(xs)`. */
  function Join(xs: seq<string>, sep: string): string
  {
    if |xs| == 0 then ""
    else if |xs| == 1 then xs[0]
    else xs[0] + sep + Join(xs[1..], sep)
  }

  /** Joining the pieces of a split with the separator gives the original text back. */
  lemma {:induction false} JoinSplit(s: string, c: char)
    ensures Join(Split(s, c), [c]) == s
  {
    if |s| > 0 {
      var rest := Split(s[1..], c);
      JoinSplit(s[1..], c);
      if s[0] == c {
        assert Split(s, c) == [""] + rest;
        assert ([""] + rest)[1..] == rest;
        assert Join([""] + rest, [c]) == "" + [c] + Join(rest, [c]);
        assert s == [c] + s[1..];
      } else {
        var xs := [[s[0]] + rest[0]] + rest[1..];
        assert Split(s, c) == xs;
        assert xs[1..] == rest[1..];
        if |rest| == 1 {
          assert Join(rest, [c]) == rest[0];
        } else {
          assert Join(rest, [c]) == rest[0] + [c] + Join(rest[1..], [c]);
          assert Join(xs, [c]) == ([s[0]] + rest[0]) + [c] + Join(rest[1..], [c]);
        }
        assert s == [s[0]] + s[1..];
      }
    }
  }

  /** Splitting at the first separator: the text before it is the first piece. */
  lemma {:induction false} SplitAtFirst(a: string, c: char, b: string)
    requires c !in a
    ensures Split(a + [c] + b, c) == [a] + Split(b, c)
  {
    var s := a + [c] + b;
    if |a| == 0 {
      assert s == [c] + b;
      assert s[1..] == b;
    } else {
      assert s[0] == a[0];
      assert s[1..] == a[1..] + [c] + b;
      SplitAtFirst(a[1..], c, b);
      assert [a[0]] + a[1..] == a;
    }
  }

  /** Text without the separator splits into one piece. */
  lemma {:induction false} SplitWithoutSeparator(a: string, c: char)
    requires c !in a
    ensures Split(a, c) == [a]
  {
    if |a| > 0 {
      SplitWithoutSeparator(a[1..], c);
      assert [a[0]] + a[1..] == a;
    }
  }

  /** Splitting the join of separator-free pieces gives the pieces back. */
  lemma {:induction false} SplitJoin(xs: seq<string>, c: char)
    requires |xs| >= 1
    requires forall k :: 0 <= k < |xs| ==> c !in xs[k]
    ensures Split(Join(xs, [c]), c) == xs
  {
    if |xs| == 1 {
      SplitWithoutSeparator(xs[0], c);
    } else {
      SplitJoin(xs[1..], c);
      SplitAtFirst(xs[0], c, Join(xs[1..], [c]));
      assert [xs[0]] + xs[1..] == xs;
    }
  }

  predicate IsDigit(c: char)
  {
    '0' <= c <= '9'
  }

  predicate AllDigits(s: string)
  {
    forall i :: 0 <= i < |s| ==> IsDigit(s[i])
  }

  function DigitChar(d: nat): (c: char)
    requires d < 10
    ensures IsDigit(c) && c as int - '0' as int == d
  {
    (d + '0' as int) as char
  }

  /** Decimal digits of `n` without leading zeros, as Python's `str()` writes a non-negative `int`. */
  function NatToString(n: nat): (s: string)
    ensures |s| >= 1
    ensures AllDigits(s)
    ensures s[0] == '0' <==> n == 0
    ensures n == 0 ==> s == "0"
    decreases n
  {
    if n < 10 then [DigitChar(n)] else NatToString(n / 10) + [DigitChar(n % 10)]
  }

  /** The number a string of decimal digits denotes. */
  function DecimalValue(s: string): nat
    requires AllDigits(s)
  {
    if |s| == 0 then 0 else 10 * DecimalValue(s[..|s| - 1]) + (s[|s| - 1] as int - '0' as int)
  }

  /** Python's `str()` of an `int`: a minus sign before the digits of a negative number. */
  function IntToString(i: int): (s: string)
    ensures |s| >= 1
    ensures s[0] == '-' <==> i < 0
  {
    if i < 0 then "-" + NatToString(-i) else NatToString(i)
  }

  /** Reads an optionally signed decimal integer; `None` for any other text. */
  function ParseInt(s: string): Option<int>
  {
    if |s| > 0 && s[0] == '-' then
      if |s| > 1 && AllDigits(s[1..]) then Some(-(DecimalValue(s[1..]) as int)) else None
    else if |s| > 0 && AllDigits(s) then Some(DecimalValue(s))
    else None
  }

  /** The digits written for `n` denote `n`. */
  lemma {:induction false} NatToStringValue(n: nat)
    ensures DecimalValue(NatToString(n)) == n
    decreases n
  {
    var s := NatToString(n);
    if n >= 10 {
      NatToStringValue(n / 10);
      var p := NatToString(n / 10);
      assert s == p + [DigitChar(n % 10)];
      assert s[..|s| - 1] == p;
    }
  }

  /** Reading back `str(i)` gives `i`. */
  lemma IntToStringRoundTrip(i: int)
    ensures ParseInt(IntToString(i)) == Some(i)
  {
    var s := IntToString(i);
    if i < 0 {
      NatToStringValue(-i);
      assert s[1..] == NatToString(-i);
    } else {
      NatToStringValue(i);
    }
  }
}

=== FILE: sync.dfy ===
/**
 The change handler: its state fixed at construction (the arguments, the two lists of
 exclusion flags, the remote-shell string) and `rsync_exec`, which checks the session
 and then runs the rsync command against it.
 */
module Sync {
  import opened Wrappers
  import opened Command
  import opened Session

  /** The handler's fields; none of them changes after construction. */
  datatype Handler = Handler(
    args: Args,
    ignoredDirs: seq<string>,
    ignoredFiles: seq<string>,
    rsyncSshConfig: string)

  /** The handler's construction, apart from starting the first ssh process. */
  function NewHandler(args: Args, dirs: seq<string>, files: seq<string>): Handler
  {
    Handler(args, DirExcludes(dirs), FileExcludes(files), RsyncSshConfig(args.remoteport))
  }

  /** The rsync command list a handler runs: it depends on the handler alone. */
  function HandlerCommand(h: Handler): seq<string>
  {
    CommandList(h.args, h.rsyncSshConfig, h.ignoredDirs + h.ignoredFiles)
  }

  /** One rsync run: the command list and the ssh process it was run against. */
  datatype Invocation = Invocation(argv: seq<string>, session: SshProcess)

  /**
   `rsync_exec`: check the session first, then run the command. The command always runs
   against a live session, the one the manager keeps afterwards, and is the same command
   whatever the session's history. It fails only when a dead session cannot be replaced.
   */
  function RsyncExec(h: Handler, m: Manager, started: bool): (r: Result<(Manager, Invocation), int>)
    requires Valid(m)
    ensures r.Ok? <==> m.current.alive || started
    ensures r.Ok? ==> var (m', inv) := r.value;
      && Valid(m')
      && inv.session == m'.current
      && inv.session.alive
      && inv.argv == HandlerCommand(h)
    ensures r.Ok? && m.current.alive ==> r.value.0 == m
    ensures r.Ok? && !m.current.alive ==> r.value.0.spawns == m.spawns + 1
    ensures r.Err? ==> r.error == SetupFailureStatus
  {
    match CheckSsh(m, started)
    case Err(code) => Err(code)
    case Ok(m') => Ok((m', Invocation(HandlerCommand(h), m'.current)))
  }

  /**
   The command a handler runs, for the arguments and patterns it was built from: the
   exclusion flags sit right after the fixed options (one place later in verbose mode),
   directory flags first, and the command ends with the local path and the destination.
   */
  lemma HandlerCommandLayout(args: Args, dirs: seq<string>, files: seq<string>)
    ensures var c := HandlerCommand(NewHandler(args, dirs, files));
      var off := if args.verbose then 9 else 8;
      var ex := DirExcludes(dirs) + FileExcludes(files);
      && |c| == off + |dirs| + |files| + 2
      && c[off..off + |ex|] == ex
      && c[|c| - 2] == args.localpath
      && c[|c| - 1] == Remote(args.remoteuser, args.remoteserver, args.remotepath)
      && c[off - 2] == "-e" && c[off - 1] == RsyncSshConfig(args.remoteport)
  {
    var h := NewHandler(args, dirs, files);
    var ex := DirExcludes(dirs) + FileExcludes(files);
    assert h.rsyncSshConfig == RsyncSshConfig(args.remoteport) && h.ignoredDirs + h.ignoredFiles == ex;
    CommandListPositions(args, h.rsyncSshConfig, ex);
  }

  /**
   The last element of a handler's command reads back as the remote user, host and
   path, when the user has no `@` and the host no `:`.
   */
  lemma CommandDestination(args: Args, dirs: seq<string>, files: seq<string>)
    requires '@' !in args.remoteuser && ':' !in args.remoteserver
    ensures var c := HandlerCommand(NewHandler(args, dirs, files));
      |c| > 0 && SplitRemote(c[|c| - 1]) == Some((args.remoteuser, args.remoteserver, args.remotepath))
  {
    HandlerCommandLayout(args, dirs, files);
    RemoteRoundTrip(args.remoteuser, args.remoteserver, args.remotepath);
  }
}

=== FILE: wrappers.dfy ===
/** Optional values and success-or-error results for the partial operations of the model. */
module Wrappers {

  /** A value that may be absent. */
  datatype Option<+T> = None | Some(value: T)

  /** Either a value or an error; the error of this model is a requested process exit status. */
  datatype Result<+T, +E> = Ok(value: T) | Err(error: E)
}
